=== FILE: README.md ===
# Inflammation analysis — a Dafny model

This project models the core of a small patient-inflammation analysis tool.
An inflammation table holds one row per patient and one column per day.
The model covers four parts of the tool:

- the per-day statistics of one table: mean, maximum and minimum
  (`inflammation/models.py`);
- the data sources that gather every `inflammation*.csv` or
  `inflammation*.json` file of a directory;
- the spread computation: the population standard deviation, day by day,
  of the daily means of several tables (`inflammation/models.py`, repeated
  in `inflammation/compute_data.py`);
- the controller `main` (`inflammation-analysis.py`). It has two modes:
  - full-data analysis: it lists the first input, collects the distinct
    file extensions there, and dispatches on them to the JSON and CSV
    sources. Then it computes and plots the spread, or raises when no
    supported format was found;
  - per-file mode: it shows the three daily series of each input CSV file.

Modules:

| module | file | contents |
|---|---|---|
| `Errors` | `errors.dfy` | `Option`, `Result` and the error kinds the tool raises |
| `Series` | `series.dfy` | sum, mean, max, min and population variance of a series; their laws |
| `Tables` | `tables.dfy` | tables, well-formedness (at least one row, rectangular), day columns |
| `Os` | `os.dfy` | the file system as a value; `splitext`, `dirname`, `join` and the `inflammation*.<ext>` glob |
| `Models` | `models.dfy` | `inflammation/models.py` |
| `ComputeData` | `compute_data.dfy` | `inflammation/compute_data.py`, stated as equal to the `Models` definitions it repeats |
| `Analysis` | `analysis.dfy` | `inflammation-analysis.py`: specification functions for both modes and the loop methods proved equal to them |

Several things are not part of the model proper and are handled as follows:

- **Reading files.** The file system is an input value, `Os.FileSystem`. It
  gives `os.listdir`, the CSV loader and the JSON loader. Each of them either
  returns its result or fails with the error it raises. `os.listdir` fails on
  a missing path or on a path that is not a directory, and `main` then raises
  that error. `glob` swallows the same failure and matches nothing. For an
  empty directory part, `glob` lists the working directory `.`.
- **Raised exceptions.** These become `Err` values, or the `raised` field of
  an `Outcome`.
- **Plotting and printing.** These become the `shown` and `unsupported`
  fields of `Outcome`.
- **The standard deviation.** The model computes it as a population variance,
  `ComputeVarianceByDay`. The deviation itself is described by
  `IsStandardDeviationByDay`: the non-negative number whose square is the
  variance, which `Series.SqrtUnique` shows is unique.

Two behaviours of the code are kept as written.

- **Two different directories.** Full-data mode lists the directory
  `infiles[0]`, but loads both data sources from `os.path.dirname(infiles[0])`.
  For a non-empty path without a trailing slash, the two strings differ, and
  appending one slash makes `dirname` return the path itself
  (`Os.DirnameOfTrailingSlash`). Which directory the sources read depends on
  the spelling: `data` gives the working directory, `data/` gives `data`, and
  `.` gives the empty string, which `glob` reads as `.`.
- **A name ending in a dot.** A file such as `notes.` has the extension `.`
  under `splitext`, so the empty string is collected as an extension and
  later reported as unsupported.

The code raises `ValueError` both when a source finds no matching file and
when it finds no supported format. The model follows the code's conditions
and gives the two cases distinct error values (`NoDataFiles`,
`NoSupportedFormats`). It uses `ShapeMismatch` where NumPy cannot stack the
daily means of tables with different day counts.

## Model

| member | source | states |
|---|---|---|
| Series.Max | inflammation/models.py:39-41 | the maximum of a non-empty series is one of its elements and bounds all of them from above |
| Series.Min | inflammation/models.py:44-46 | the minimum of a non-empty series is one of its elements and bounds all of them from below |
| Series.PopVariance | inflammation/models.py:84 | the population variance (`np.std` without a degrees-of-freedom correction, squared) is never negative |
| Series.MeanBetweenMinAndMax | inflammation/models.py:34-46 | the mean of a non-empty series lies between its minimum and its maximum |
| Series.VarianceZeroIffConstant | inflammation/models.py:84 | the variance is zero if and only if every element equals every other |
| Series.VarianceOfSingleton | inflammation/models.py:84 | a one-element series has variance zero |
| Series.VarianceOfPair | inflammation/models.py:84 | the variance of two values is a quarter of the square of their difference |
| Series.VariancePermutation | inflammation/models.py:84 | reordering a series does not change its length or its variance |
| Series.SqrtUnique | inflammation/models.py:84 | a variance has at most one non-negative square root, so the standard deviation is determined by the variance |
| Series.SqrtZeroIff | inflammation/models.py:84 | the standard deviation is zero exactly when the variance is |
| Os.Extension | inflammation-analysis.py:26 | the extension is empty or is a dot followed by dot-free, slash-free text that ends the path |
| Os.ExtensionOfName | inflammation-analysis.py:26 | `stem.e`, with a stem that has a non-dot character and an `e` free of dots and slashes, has the extension `.e` |
| Os.ExtensionWithoutDot | inflammation-analysis.py:26-27 | a name without a dot has no extension and so contributes nothing |
| Os.ExtensionOfDotfile | inflammation-analysis.py:26-27 | a name such as `.bashrc`, whose only dot leads it, has no extension |
| Os.Dirname | inflammation-analysis.py:33 | the directory part is a prefix of the path, and is empty exactly when the path has no slash |
| Os.DirnameOfTrailingSlash | inflammation-analysis.py:33-37 | for a non-empty path `d` not ending in a slash, `dirname("d/")` is `d` but `dirname("d")` is not `d` |
| Os.Join | inflammation/models.py:56 | the joined path ends with the name and, for a relative name, starts with the directory |
| Os.GlobMatchIff | inflammation/models.py:56 | the pattern `inflammation*.<ext>` matches a name if and only if the name is `inflammation<middle>.<ext>` for some middle part |
| Models.DailyMean | inflammation/models.py:34-36 | one value per day: the sum of that day's column divided by the number of patients |
| Models.DailyMax | inflammation/models.py:39-41 | one value per day: a reading of that day that no patient's reading exceeds |
| Models.DailyMin | inflammation/models.py:44-46 | one value per day: a reading of that day below which no patient's reading lies |
| Models.DailyMeanBetweenMinAndMax | inflammation/models.py:34-46 | on every day, the daily minimum is at most the daily mean and the daily mean is at most the daily maximum |
| Models.ZeroTableStatistics | tests/test_models.py:12 | an all-zero table has zero mean, maximum and minimum on every day |
| Models.DailyMeanExamples | tests/test_models.py:13-14 | the means of the worked examples are [3, 4] and [4, 1] |
| Models.DailyMaxMinExamples | tests/test_models.py:26-42 | the maxima and minima of the worked examples are [5, 6], [1, 2], [5, 7] and [-1, 2] |
| Models.DailyMeanOfTwoPatients | inflammation/models.py:34-36 | with two patients, each day's mean is the midpoint of their two readings |
| Models.TwoPatientMeanExamples | tests/bad_test.py:6-12 | the means of [[2, 0], [4, 0]] and [[3, 0], [4, 0]] are [3, 0] and [3.5, 0]; the file expects [2, 0] and [3, 0] |
| Models.MatchPaths | inflammation/models.py:56 | the glob yields no more paths than there are entries, and yields none exactly when no entry matches the pattern |
| Models.MatchPathsConcat | inflammation/models.py:56-59 | the glob of a listing split in two is the glob of the first part followed by that of the second, so paths keep enumeration order and multiplicity |
| Models.MatchPathsOfEntry | inflammation/models.py:56 | one entry yields exactly one path, the directory joined with its name, when it matches the pattern, and none otherwise |
| Models.MatchPathsMembers | inflammation/models.py:56 | a path is yielded if and only if it is the directory joined with the name of a matching entry |
| Models.LoadAll | inflammation/models.py:59-61 | loading succeeds exactly when every file loads, returning the tables in path order; otherwise the error is that of the first file that fails |
| Models.DataSource.LoadInflammationData | inflammation/models.py:54-76 | no matching file raises "no data files" for the source's directory and extension. Otherwise the result is one table per matching file, in glob order, when every file loads, and else the error of the first file that fails to load |
| Models.ComputeVarianceByDay | inflammation/models.py:79-86 | one non-negative value per day: the variance, across tables, of the tables' daily means for that day |
| Models.IsStandardDeviationByDay | inflammation/models.py:84 | a standard deviation by day (the non-negative root of each day's variance) has one value per day, and is zero on a day exactly when every table has the same mean on that day |
| Models.StandardDeviationByDayUnique | inflammation/models.py:84 | the per-day standard deviation is unique, and is zero exactly where the variance is zero |
| Models.SpreadZeroIffMeansAgree | inflammation/models.py:79-86 | a day's spread is zero if and only if every table has the same mean on that day |
| Models.SpreadOfSingleTable | inflammation/models.py:79-86 | a single table has zero spread on every day |
| Models.SpreadOfAgreeingTables | inflammation/models.py:79-86 | tables with identical daily means have zero spread on every day |
| Models.SpreadOfTwoPatients | inflammation/models.py:79-86 | two one-patient tables have, on each day, a variance of a quarter of the squared difference of their readings |
| Models.MeansOnDayPermutation | inflammation/models.py:81-82 | reordering the tables only reorders each day's means |
| Models.PermutationStackable | inflammation/models.py:82 | reordering tables that can be stacked leaves them stackable, with the same number of days |
| Models.SpreadInvariantUnderReordering | inflammation/models.py:79-86 | the spread does not depend on the order of the tables, such as the glob order or the extension order |
| Models.AnalyseData | inflammation/models.py:89-96 | the analysis result is the spread by day |
| ComputeData.LoadCsvInflammationData | inflammation/compute_data.py:15-22 | behaves exactly as the CSV source of `inflammation/models.py` |
| ComputeData.LoadJsonInflammationData | inflammation/compute_data.py:30-37 | behaves exactly as the JSON source of `inflammation/models.py` |
| ComputeData.ComputeVarianceByDay | inflammation/compute_data.py:40-47 | computes the same spread as `inflammation/models.py` |
| ComputeData.AnalyseData | inflammation/compute_data.py:50-57 | the analysis result is the spread by day |
| ComputeData.CsvSourceWithoutMatchesRaises | inflammation/compute_data.py:17-19 | a directory without `inflammation*.csv` files raises "no data files" |
| ComputeData.TwoPatientsInOneFile | tests/test_compute_data.py:53 | one file with two patients has spread [0, 0, 0] |
| ComputeData.TwoPatientsInTwoFiles | tests/test_compute_data.py:54 | two one-patient files have variance [0, 0.25, 0]; [0, 0.5, 0] is their standard deviation |
| ComputeData.TwoIdenticalFiles | tests/test_compute_data.py:55 | two identical files have spread [0, 0, 0] |
| Analysis.Normalise | inflammation-analysis.py:17-19 | a lone path becomes a one-element list; a list is kept |
| Analysis.RegularFiles | inflammation-analysis.py:23 | the kept names are exactly those of the listing's regular files |
| Analysis.RegularFilesConcat | inflammation-analysis.py:23 | the filter distributes over concatenation of listings, so it keeps listing order and multiplicity |
| Analysis.RegularFilesOfEntry | inflammation-analysis.py:23 | a single entry is kept, by name, exactly when it is a regular file |
| Analysis.RawExtensionsOfFiles | inflammation-analysis.py:24-28 | a stripped extension is produced if and only if some file has it |
| Analysis.Dedup | inflammation-analysis.py:27-28 | the `not in` test leaves no duplicates and keeps every value seen |
| Analysis.DedupSnoc | inflammation-analysis.py:27-28 | a new value is appended at the end; a repeated one changes nothing |
| Analysis.DedupFirstSeenOrder | inflammation-analysis.py:27-28 | the distinct values keep the order of their first occurrence |
| Analysis.Extensions | inflammation-analysis.py:24-28 | the collected extensions are distinct and are exactly the files' non-empty extensions without the dot |
| Analysis.ExtensionsCollected | inflammation-analysis.py:24-28 | the collected extensions come in the order in which the files first show them |
| Analysis.NoRecognisedExtension | inflammation-analysis.py:24-28 | files none of which ends in `.csv` or `.json` yield neither `csv` nor `json` |
| Analysis.Dispatch | inflammation-analysis.py:30-41 | only extensions other than `json` and `csv` are reported as unsupported |
| Analysis.Unrecognised | inflammation-analysis.py:40-41 | the extensions other than `json` and `csv`, in order: a value is in it exactly when it is such an extension of the input |
| Analysis.DispatchReports | inflammation-analysis.py:30-41 | if no called source raises, every extension other than `json` and `csv` is reported, in order. Otherwise the error raised is that of the first extension, in order, whose source raises, and exactly the unrecognised extensions before it are reported |
| Analysis.DispatchFailureSticks | inflammation-analysis.py:30-41 | once a source raises, later extensions change nothing |
| Analysis.DispatchFailureIff | inflammation-analysis.py:30-41 | the dispatch raises exactly when the source of a present recognised extension raises |
| Analysis.DispatchTables | inflammation-analysis.py:30-41 | with distinct extensions, when the source of each extension present loads (the other source is never called), nothing is raised. The dataset is then the JSON tables and the CSV tables, each present when its extension is, in the order the extensions first appear (`GatheredTables`) |
| Analysis.GatheredTablesSnoc | inflammation-analysis.py:31-39 | a new last extension appends its own source's tables when it is `json` or `csv`, and adds nothing otherwise |
| Analysis.DispatchAddsOnlyRecognised | inflammation-analysis.py:30-41 | without `json` or `csv`, no table is gathered |
| Analysis.FullDataAnalysis | inflammation-analysis.py:22-49 | full-data mode shows at most one display, a spread plot, and shows it exactly when nothing is raised; it reports only extensions other than `json` and `csv` |
| Analysis.FullDataAnalysisPlots | inflammation-analysis.py:22-49 | when the first input lists and the source of each recognised extension found there loads, full-data mode reports exactly the unrecognised extensions and plots `analyse_data` of the JSON and CSV tables gathered in first-seen extension order; it raises NoSupportedFormats when nothing is gathered and ShapeMismatch when the tables' day counts differ |
| Analysis.UnlistableInputRaises | inflammation-analysis.py:23 | a first input that `os.listdir` cannot list raises that error, reports nothing and shows nothing |
| Analysis.OnlyUnsupportedFormatsRaise | inflammation-analysis.py:22-47 | a listable first input whose files have no `.csv` or `.json` extension shows nothing and raises "no supported data file formats" |
| Analysis.ViewData | inflammation-analysis.py:54-58 | a view holds `average`, `max` and `min`, in that order, one value per day, with min <= average <= max |
| Analysis.PerFileAnalysis | inflammation-analysis.py:51-60 | per-file mode reports no extension and shows only daily views, at most one per input; it shows one per input when nothing is raised |
| Analysis.PerFileFailureSticks | inflammation-analysis.py:51-60 | once a file fails to load, later files are not shown |
| Analysis.PerFileViewsAll | inflammation-analysis.py:51-60 | when every file loads, exactly one view per file is shown, in input order |
| Analysis.CollectExtensions | inflammation-analysis.py:24-28 | the extension loop computes `Extensions` of the regular files |
| Analysis.GatherDataset | inflammation-analysis.py:30-41 | the dispatch loop, with its early exit on a raising source, computes `Dispatch` |
| Analysis.ShowEachFile | inflammation-analysis.py:51-60 | the per-file loop, which stops at the first failing file, computes `PerFileAnalysis` |
| Analysis.Run | inflammation-analysis.py:10-60 | `main` computes `FullDataAnalysis` of the normalised inputs in full-data mode, and `PerFileAnalysis` of them otherwise |

## Left out

- `load_csv` and `load_json` (inflammation/models.py:16-31): parsing CSV and JSON is not modelled. The loaders are fields of `Os.FileSystem`, so every proof holds for any loader. In particular, `np.loadtxt` squeezing a one-row or a one-column file into a one-dimensional array is not represented.
- `glob.glob`, `os.listdir` and `os.path.isfile`: the listing, its order and its failure are inputs. The glob is modelled as a match against the listing of the data directory. Glob metacharacters inside the directory name are not modelled. The hidden-file rule needs nothing further, because the pattern starts with `inflammation` and so cannot match a dotfile.
- Path spellings: the file system is a function of the path string. Two spellings of one directory, such as `data` and `data/`, are not known to have the same listing.
- Series.Sum and the statistics built on it: they use exact real arithmetic. NumPy's floating-point rounding, and its pairwise summation, are not modelled.
- Models.ComputeVarianceByDay: states the variance, not its floating-point square root. The standard deviation is specified by `Models.IsStandardDeviationByDay` and `Series.IsSqrt`.
- ComputeData.ComputeVarianceByDay: the same weakening as `Models.ComputeVarianceByDay`.
- Tables with no patients, where NumPy returns NaN means or raises, and ragged tables: these are excluded by `Tables.WellFormed`. `main` reports them as `ShapeMismatch`.
- `views.visualize`, `views.plot_data` and `compute_data.plot_data` (inflammation/compute_data.py:60-66): drawing is not modelled. What is handed to them is recorded in `Outcome.shown`.
- The `print` of an unsupported format: recorded as the extension in `Outcome.unsupported`.
- Command-line parsing (inflammation-analysis.py:63-79): `main` takes the parsed `infiles` and `--full-data-analysis` as parameters. `nargs='+'` guarantees at least one input; an empty list is still modelled, as `NoInputFiles`.
- The `TypeError` raised on a table of strings (tests/test_models.py:51-54): the model's tables hold numbers only.
- `patient_normalise`: tests/test_models.py imports it from inflammation/models.py, which does not define it, so there is nothing to model.
- The messages of the raised exceptions: only their kind and the directory and extension they name are kept.

=== FILE: analysis.dfy ===
/**
 * The controller (`inflammation-analysis.py`, `main`). In full-analysis mode
 * it lists the directory named by the first input, collects the distinct
 * file extensions found there, loads the CSV and JSON data sources of the
 * directory `os.path.dirname` gives for the first input, in extension order,
 * and plots the spread of the daily means of everything loaded. Otherwise it shows the daily mean,
 * maximum and minimum of each input CSV file in turn.
 */
module Analysis {
  import opened Errors
  import opened Tables
  import opened Os
  import opened Models

  /** The `infiles` argument: a single path or a list of paths. */
  datatype InFiles = Single(path: string) | Many(paths: seq<string>)

  /** What is handed to the plotting sink. */
  datatype Display =
    | SpreadPlot(varianceByDay: seq<real>)             // `views.plot_data` of the spread (its square root is drawn)
    | DailyView(panels: seq<(string, seq<real>)>)     // `views.visualize` of a label-to-series mapping, in insertion order

  /**
   * Everything one run does that can be observed: the unsupported extensions
   * it reports, the displays it hands to the sink, in order, and the error it
   * raises, if any.
   */
  datatype Outcome = Outcome(unsupported: seq<string>, shown: seq<Display>, raised: Option<Error>)

  /** A lone path is wrapped into a one-element list; a list is kept as it is. */
  function Normalise(infiles: InFiles): (paths: seq<string>)
    ensures infiles.Single? ==> paths == [infiles.path]
    ensures infiles.Many? ==> paths == infiles.paths
  {
    match infiles
    case Single(p) => [p]
    case Many(ps) => ps
  }

  /** The names of the regular files of a listing, in listing order. */
  function RegularFiles(entries: seq<DirEntry>): (files: seq<string>)
    ensures |files| <= |entries|
    ensures forall f :: f in files <==> exists e :: e in entries && e.isFile && e.name == f
  {
    if entries == [] then []
    else
      var rest := RegularFiles(entries[1..]);
      assert forall e :: e in entries <==> e == entries[0] || e in entries[1..];
      if entries[0].isFile then [entries[0].name] + rest else rest
  }

  /** The filter keeps listing order and multiplicity: it distributes over concatenation. */
  lemma {:induction false} RegularFilesConcat(a: seq<DirEntry>, b: seq<DirEntry>)
    ensures RegularFiles(a + b) == RegularFiles(a) + RegularFiles(b)
    decreases |a|
  {
    if a == [] {
      assert a + b == b;
    } else {
      assert (a + b)[0] == a[0];
      assert (a + b)[1..] == a[1..] + b;
      RegularFilesConcat(a[1..], b);
    }
  }

  /** A listing of one entry keeps its name exactly when the entry is a regular file. */
  lemma RegularFilesOfEntry(e: DirEntry)
    ensures RegularFiles([e]) == if e.isFile then [e.name] else []
  {
    assert [e][1..] == [];
  }

  // ---- The extension-collection loop --------------------------------------

  /** The extension of `f` without its leading dot, when `splitext` gives a non-empty one. */
  function StrippedExtension(f: string): seq<string>
  {
    var ext := Extension(f);
    if ext != "" then [ext[1..]] else []
  }

  /** The stripped extension of every file that has one, in file order and with repetitions. */
  function RawExtensions(files: seq<string>): seq<string>
  {
    if files == [] then []
    else RawExtensions(files[..|files| - 1]) + StrippedExtension(files[|files| - 1])
  }

  /** Some file has extension "." + x. */
  predicate HasExtension(files: seq<string>, x: string)
  {
    exists i :: 0 <= i < |files| && Extension(files[i]) != "" && x == Extension(files[i])[1..]
  }

  lemma RawExtensionsSnoc(files: seq<string>, n: nat)
    requires n < |files|
    ensures RawExtensions(files[..n + 1]) == RawExtensions(files[..n]) + StrippedExtension(files[n])
  {
    assert files[..n + 1][..n] == files[..n];
  }

  lemma HasExtensionSnoc(init: seq<string>, last: string, x: string)
    ensures HasExtension(init + [last], x) <==> HasExtension(init, x) || x in StrippedExtension(last)
  {
    var files := init + [last];
    if HasExtension(files, x) {
      var i :| 0 <= i < |files| && Extension(files[i]) != "" && x == Extension(files[i])[1..];
      if i < |init| {
        assert files[i] == init[i];
      }
    }
    if HasExtension(init, x) {
      var i :| 0 <= i < |init| && Extension(init[i]) != "" && x == Extension(init[i])[1..];
      assert files[i] == init[i];
    }
    if x in StrippedExtension(last) {
      assert files[|init|] == last;
    }
  }

  /** The raw extensions are exactly the stripped non-empty extensions of the files. */
  lemma {:induction false} RawExtensionsOfFiles(files: seq<string>)
    ensures forall x :: x in RawExtensions(files) <==> HasExtension(files, x)
    decreases |files|
  {
    if files != [] {
      var init, last := files[..|files| - 1], files[|files| - 1];
      assert files == init + [last];
      RawExtensionsOfFiles(init);
      forall x ensures x in RawExtensions(files) <==> HasExtension(files, x) {
        HasExtensionSnoc(init, last, x);
      }
    }
  }

  predicate NoDuplicates(xs: seq<string>)
  {
    forall a, b :: 0 <= a < b < |xs| ==> xs[a] != xs[b]
  }

  /** Each element at its first occurrence, in the order of first occurrence. */
  function Dedup(xs: seq<string>): (r: seq<string>)
    ensures NoDuplicates(r)
    ensures forall x :: x in r <==> x in xs
  {
    if xs == [] then []
    else
      var init, last := xs[..|xs| - 1], xs[|xs| - 1];
      var d := Dedup(init);
      assert xs == init + [last];
      if last in d then d else d + [last]
  }

  lemma DedupSnoc(xs: seq<string>, x: string)
    ensures Dedup(xs + [x]) == if x in Dedup(xs) then Dedup(xs) else Dedup(xs) + [x]
  {
    assert (xs + [x])[..|xs|] == xs;
  }

  /** The position of the first occurrence of `x` in `xs`. */
  function FirstIndex(xs: seq<string>, x: string): (k: nat)
    requires x in xs
    ensures k < |xs| && xs[k] == x && x !in xs[..k]
  {
    if xs[0] == x then 0
    else
      var k := FirstIndex(xs[1..], x) + 1;
      assert xs[..k] == [xs[0]] + xs[1..][..k - 1];
      k
  }

  lemma FirstIndexOfExtension(xs: seq<string>, y: string, x: string)
    requires x in xs
    ensures FirstIndex(xs + [y], x) == FirstIndex(xs, x)
  {
    var k := FirstIndex(xs, x);
    var k' := FirstIndex(xs + [y], x);
    assert (xs + [y])[..k] == xs[..k];
    assert (xs + [y])[..k'] == xs[..k'];
  }

  /** Dedup keeps the order in which the elements first appear. */
  lemma {:induction false} DedupFirstSeenOrder(xs: seq<string>)
    ensures forall a, b :: 0 <= a < b < |Dedup(xs)| ==> FirstIndex(xs, Dedup(xs)[a]) < FirstIndex(xs, Dedup(xs)[b])
    decreases |xs|
  {
    if xs != [] {
      var init, last := xs[..|xs| - 1], xs[|xs| - 1];
      var d := Dedup(init);
      assert xs == init + [last];
      DedupFirstSeenOrder(init);
      forall x | x in d ensures FirstIndex(xs, x) == FirstIndex(init, x) {
        FirstIndexOfExtension(init, last, x);
      }
      if last !in d {
        assert last !in init;
        assert FirstIndex(xs, last) == |init|;
        assert Dedup(xs) == d + [last];
      }
    }
  }

  /** The extensions collected from a listing, in first-seen order. */
  function Extensions(files: seq<string>): (exts: seq<string>)
    ensures NoDuplicates(exts)
    ensures forall x :: x in exts <==> HasExtension(files, x)
  {
    RawExtensionsOfFiles(files);
    Dedup(RawExtensions(files))
  }

  /** The collected extensions keep the order in which the files first show them. */
  lemma ExtensionsCollected(files: seq<string>)
    ensures forall a, b :: 0 <= a < b < |Extensions(files)| ==>
      FirstIndex(RawExtensions(files), Extensions(files)[a]) < FirstIndex(RawExtensions(files), Extensions(files)[b])
  {
    DedupFirstSeenOrder(RawExtensions(files));
  }

  // ---- The dispatch loop --------------------------------------------------

  /** The state of the dispatch loop: the tables gathered, the extensions reported as unsupported, and a raised error. */
  datatype Gathered = Gathered(dataset: seq<Table>, unsupported: seq<string>, failure: Option<Error>)

  /**
   * Walks the extensions in order: "json" adds the JSON source's tables, "csv"
   * the CSV source's, anything else is reported as unsupported; the first
   * source that raises stops the walk.
   */
  function Dispatch(exts: seq<string>, json: Result<seq<Table>>, csv: Result<seq<Table>>): (g: Gathered)
    ensures forall e :: e in g.unsupported ==> e in exts && e != "json" && e != "csv"
  {
    if exts == [] then Gathered([], [], None)
    else
      var init := exts[..|exts| - 1];
      var g := Dispatch(init, json, csv);
      assert forall e :: e in init ==> e in exts;
      DispatchStep(g, exts[|exts| - 1], json, csv)
  }

  /** An extension whose data source is called and raises. */
  predicate Raises(ext: string, json: Result<seq<Table>>, csv: Result<seq<Table>>)
  {
    (ext == "json" && json.Err?) || (ext == "csv" && csv.Err?)
  }

  /** The error the source of a raising extension raises. */
  function RaisedBy(ext: string, json: Result<seq<Table>>, csv: Result<seq<Table>>): Error
    requires Raises(ext, json, csv)
  {
    if ext == "json" then json.error else csv.error
  }

  /** The extensions other than "json" and "csv", in order and with repetitions. */
  function Unrecognised(exts: seq<string>): (r: seq<string>)
    ensures forall x :: x in r <==> x in exts && x != "json" && x != "csv"
  {
    if exts == [] then []
    else
      var init, last := exts[..|exts| - 1], exts[|exts| - 1];
      assert exts == init + [last];
      Unrecognised(init) + (if last == "json" || last == "csv" then [] else [last])
  }

  /** One turn of the dispatch loop. */
  function DispatchStep(g: Gathered, ext: string, json: Result<seq<Table>>, csv: Result<seq<Table>>): Gathered
  {
    if g.failure.Some? then g
    else if ext == "json" then
      (if json.Err? then g.(failure := Some(json.error)) else g.(dataset := g.dataset + json.value))
    else if ext == "csv" then
      (if csv.Err? then g.(failure := Some(csv.error)) else g.(dataset := g.dataset + csv.value))
    else g.(unsupported := g.unsupported + [ext])
  }

  lemma DispatchSnoc(exts: seq<string>, n: nat, json: Result<seq<Table>>, csv: Result<seq<Table>>)
    requires n < |exts|
    ensures Dispatch(exts[..n + 1], json, csv) == DispatchStep(Dispatch(exts[..n], json, csv), exts[n], json, csv)
  {
    assert exts[..n + 1][..n] == exts[..n];
  }

  /** Once a source has raised, later extensions change nothing. */
  lemma {:induction false} DispatchFailureSticks(exts: seq<string>, n: nat, json: Result<seq<Table>>, csv: Result<seq<Table>>)
    requires n <= |exts|
    requires Dispatch(exts[..n], json, csv).failure.Some?
    ensures Dispatch(exts, json, csv) == Dispatch(exts[..n], json, csv)
    decreases |exts| - n
  {
    if n < |exts| {
      assert exts[..|exts| - 1][..n] == exts[..n];
      DispatchFailureSticks(exts[..|exts| - 1], n, json, csv);
    } else {
      assert exts[..n] == exts;
    }
  }

  /** Position `k` holds the first extension whose source raises. */
  predicate FirstRaisingAt(exts: seq<string>, k: nat, json: Result<seq<Table>>, csv: Result<seq<Table>>)
  {
    k < |exts| && Raises(exts[k], json, csv) && forall i :: 0 <= i < k ==> !Raises(exts[i], json, csv)
  }

  /**
   * Without a raising source, every unrecognised extension is reported, in
   * order. Otherwise the error is that of the first extension whose source
   * raises, and exactly the unrecognised extensions before it are reported.
   */
  lemma {:induction false} DispatchReports(exts: seq<string>, json: Result<seq<Table>>, csv: Result<seq<Table>>)
    ensures Dispatch(exts, json, csv).failure.None? ==>
      (forall i :: 0 <= i < |exts| ==> !Raises(exts[i], json, csv)) &&
      Dispatch(exts, json, csv).unsupported == Unrecognised(exts)
    ensures Dispatch(exts, json, csv).failure.Some? ==>
      exists k: nat :: FirstRaisingAt(exts, k, json, csv) &&
        Dispatch(exts, json, csv).failure == Some(RaisedBy(exts[k], json, csv)) &&
        Dispatch(exts, json, csv).unsupported == Unrecognised(exts[..k])
    decreases |exts|
  {
    if exts != [] {
      var init, last := exts[..|exts| - 1], exts[|exts| - 1];
      assert exts == init + [last];
      DispatchReports(init, json, csv);
      var g := Dispatch(init, json, csv);
      assert Dispatch(exts, json, csv) == DispatchStep(g, last, json, csv);
      if g.failure.Some? {
        var k: nat :| FirstRaisingAt(init, k, json, csv) &&
          g.failure == Some(RaisedBy(init[k], json, csv)) && g.unsupported == Unrecognised(init[..k]);
        assert exts[..k] == init[..k];
        assert FirstRaisingAt(exts, k, json, csv);
      } else if Raises(last, json, csv) {
        assert exts[..|init|] == init;
        assert FirstRaisingAt(exts, |init|, json, csv);
      }
    }
  }

  /** The walk raises exactly when a recognised extension's source raises. */
  lemma {:induction false} DispatchFailureIff(exts: seq<string>, json: Result<seq<Table>>, csv: Result<seq<Table>>)
    ensures Dispatch(exts, json, csv).failure.Some? <==> ("json" in exts && json.Err?) || ("csv" in exts && csv.Err?)
    decreases |exts|
  {
    if exts != [] {
      var init := exts[..|exts| - 1];
      DispatchFailureIff(init, json, csv);
      assert exts == init + [exts[|exts| - 1]];
    }
  }

  /**
   * The tables a walk over `exts` gathers when no source it calls raises: the
   * JSON tables and the CSV tables, each present when its extension is, in the
   * order their extensions first appear.
   */
  function GatheredTables(exts: seq<string>, json: Result<seq<Table>>, csv: Result<seq<Table>>): seq<Table>
    requires "json" in exts ==> json.Ok?
    requires "csv" in exts ==> csv.Ok?
  {
    if "json" in exts && "csv" in exts then
      (if FirstIndex(exts, "json") < FirstIndex(exts, "csv") then json.value + csv.value else csv.value + json.value)
    else if "json" in exts then json.value
    else if "csv" in exts then csv.value
    else []
  }

  /** A new last extension appends its source's tables when it is recognised, and nothing otherwise. */
  lemma GatheredTablesSnoc(init: seq<string>, ext: string, json: Result<seq<Table>>, csv: Result<seq<Table>>)
    requires ext !in init
    requires "json" in init + [ext] ==> json.Ok?
    requires "csv" in init + [ext] ==> csv.Ok?
    ensures GatheredTables(init + [ext], json, csv) ==
      if ext == "json" then GatheredTables(init, json, csv) + json.value
      else if ext == "csv" then GatheredTables(init, json, csv) + csv.value
      else GatheredTables(init, json, csv)
  {
    var exts := init + [ext];
    assert forall e :: e in exts <==> e in init || e == ext;
    FirstIndexOfNewLast(init, ext, "json");
    FirstIndexOfNewLast(init, ext, "csv");
  }

  /** A new last element is first seen at the end; earlier elements keep their first positions. */
  lemma FirstIndexOfNewLast(init: seq<string>, ext: string, other: string)
    requires ext !in init
    ensures FirstIndex(init + [ext], ext) == |init|
    ensures other in init ==> FirstIndex(init + [ext], other) == FirstIndex(init, other) < |init|
  {
    if other in init { FirstIndexOfExtension(init, ext, other); }
    assert (init + [ext])[..|init|] == init;
  }

  /** With distinct extensions and no called source raising, the walk gathers exactly `GatheredTables`. */
  lemma {:induction false} DispatchTables(exts: seq<string>, json: Result<seq<Table>>, csv: Result<seq<Table>>)
    requires NoDuplicates(exts)
    requires "json" in exts ==> json.Ok?
    requires "csv" in exts ==> csv.Ok?
    ensures Dispatch(exts, json, csv).failure == None
    ensures Dispatch(exts, json, csv).dataset == GatheredTables(exts, json, csv)
    decreases |exts|
  {
    if exts != [] {
      var init, ext := exts[..|exts| - 1], exts[|exts| - 1];
      assert exts == init + [ext];
      assert forall e :: e in init ==> e in exts && e != ext;
      assert NoDuplicates(init);
      DispatchTables(init, json, csv);
      GatheredTablesSnoc(init, ext, json, csv);
    }
  }

  // ---- The two modes ------------------------------------------------------

  /**
   * `--full-data-analysis`: the spread of the daily means of every table of the
   * supported formats. At most one plot is shown, and it is shown exactly when
   * nothing is raised; only unrecognised extensions are reported.
   */
  function FullDataAnalysis(paths: seq<string>, fs: FileSystem): (o: Outcome)
    ensures |o.shown| <= 1
    ensures o.shown != [] <==> o.raised.None?
    ensures o.shown != [] ==> o.shown[0].SpreadPlot?
    ensures forall e :: e in o.unsupported ==> e != "json" && e != "csv"
  {
    if |paths| == 0 then Outcome([], [], Some(NoInputFiles))
    else if fs.listDir(paths[0]).Err? then Outcome([], [], Some(fs.listDir(paths[0]).error))
    else
      var exts := Extensions(RegularFiles(fs.listDir(paths[0]).value));
      var dir := Dirname(paths[0]);
      var g := Dispatch(exts, JsonDataSource(dir).LoadInflammationData(fs), CsvDataSource(dir).LoadInflammationData(fs));
      if g.failure.Some? then Outcome(g.unsupported, [], g.failure)
      else if g.dataset == [] then Outcome(g.unsupported, [], Some(NoSupportedFormats))
      else if !Stackable(g.dataset) then Outcome(g.unsupported, [], Some(ShapeMismatch))
      else Outcome(g.unsupported, [SpreadPlot(AnalyseData(g.dataset))], None)
  }

  /** A first input that cannot be listed (missing, or not a directory) raises the listing's error and shows nothing. */
  lemma UnlistableInputRaises(paths: seq<string>, fs: FileSystem)
    requires |paths| > 0 && fs.listDir(paths[0]).Err?
    ensures FullDataAnalysis(paths, fs) == Outcome([], [], Some(fs.listDir(paths[0]).error))
  {
  }

  /**
   * When the first input can be listed and each recognised extension found
   * there has a source that loads, full-data mode reports exactly the
   * unrecognised extensions and plots `analyse_data` of the JSON and CSV
   * tables gathered in first-seen extension order; with no table gathered it
   * raises NoSupportedFormats, and with tables of different day counts it
   * raises ShapeMismatch.
   */
  lemma FullDataAnalysisPlots(paths: seq<string>, fs: FileSystem)
    requires |paths| > 0 && fs.listDir(paths[0]).Ok?
    requires var exts := Extensions(RegularFiles(fs.listDir(paths[0]).value));
      ("json" in exts ==> JsonDataSource(Dirname(paths[0])).LoadInflammationData(fs).Ok?) &&
      ("csv" in exts ==> CsvDataSource(Dirname(paths[0])).LoadInflammationData(fs).Ok?)
    ensures var exts := Extensions(RegularFiles(fs.listDir(paths[0]).value));
      var ds := GatheredTables(exts, JsonDataSource(Dirname(paths[0])).LoadInflammationData(fs),
                               CsvDataSource(Dirname(paths[0])).LoadInflammationData(fs));
      FullDataAnalysis(paths, fs) ==
        if ds == [] then Outcome(Unrecognised(exts), [], Some(NoSupportedFormats))
        else if !Stackable(ds) then Outcome(Unrecognised(exts), [], Some(ShapeMismatch))
        else Outcome(Unrecognised(exts), [SpreadPlot(ComputeVarianceByDay(ds))], None)
  {
    var exts := Extensions(RegularFiles(fs.listDir(paths[0]).value));
    var json := JsonDataSource(Dirname(paths[0])).LoadInflammationData(fs);
    var csv := CsvDataSource(Dirname(paths[0])).LoadInflammationData(fs);
    DispatchTables(exts, json, csv);
    DispatchReports(exts, json, csv);
  }

  /** A non-empty extension that is not ".csv" or ".json" does not strip to "csv" or "json". */
  lemma StrippedIsNotRecognised(e: string)
    requires e != "" && e[0] == '.' && e != ".csv" && e != ".json"
    ensures e[1..] != "csv" && e[1..] != "json"
  {
    assert e == [e[0]] + e[1..];
  }

  /** Files none of which ends in ".csv" or ".json" yield neither "csv" nor "json" as an extension. */
  lemma NoRecognisedExtension(files: seq<string>)
    requires forall f :: f in files ==> Extension(f) != ".csv" && Extension(f) != ".json"
    ensures "json" !in Extensions(files) && "csv" !in Extensions(files)
  {
    forall x | HasExtension(files, x) ensures x != "json" && x != "csv" {
      var i :| 0 <= i < |files| && Extension(files[i]) != "" && x == Extension(files[i])[1..];
      assert files[i] in files;
      StrippedIsNotRecognised(Extension(files[i]));
    }
  }

  /** A listing of the first input without any `.csv` or `.json` file raises "no supported data file formats". */
  lemma OnlyUnsupportedFormatsRaise(paths: seq<string>, fs: FileSystem)
    requires |paths| > 0 && fs.listDir(paths[0]).Ok?
    requires forall f :: f in RegularFiles(fs.listDir(paths[0]).value) ==> Extension(f) != ".csv" && Extension(f) != ".json"
    ensures FullDataAnalysis(paths, fs).shown == []
    ensures FullDataAnalysis(paths, fs).raised == Some(NoSupportedFormats)
  {
    var exts := Extensions(RegularFiles(fs.listDir(paths[0]).value));
    NoRecognisedExtension(RegularFiles(fs.listDir(paths[0]).value));
    var dir := Dirname(paths[0]);
    var json, csv := JsonDataSource(dir).LoadInflammationData(fs), CsvDataSource(dir).LoadInflammationData(fs);
    DispatchFailureIff(exts, json, csv);
    DispatchAddsOnlyRecognised(exts, json, csv);
  }

  /** Without "json" or "csv" among the extensions, the walk gathers no table. */
  lemma {:induction false} DispatchAddsOnlyRecognised(exts: seq<string>, json: Result<seq<Table>>, csv: Result<seq<Table>>)
    requires "json" !in exts && "csv" !in exts
    ensures Dispatch(exts, json, csv).dataset == []
    decreases |exts|
  {
    if exts != [] {
      var init := exts[..|exts| - 1];
      assert exts == init + [exts[|exts| - 1]];
      DispatchAddsOnlyRecognised(init, json, csv);
    }
  }

  /**
   * The mapping shown for one file: "average", "max" and "min", in that order,
   * each with one value per day, and min <= average <= max on every day.
   */
  function ViewData(t: Table): (panels: seq<(string, seq<real>)>)
    requires WellFormed(t)
    ensures |panels| == 3
    ensures panels[0].0 == "average" && panels[1].0 == "max" && panels[2].0 == "min"
    ensures forall k :: 0 <= k < 3 ==> |panels[k].1| == Days(t)
    ensures forall j :: 0 <= j < Days(t) ==> panels[2].1[j] <= panels[0].1[j] <= panels[1].1[j]
  {
    DailyMeanBetweenMinAndMax(t);
    [("average", DailyMean(t)), ("max", DailyMax(t)), ("min", DailyMin(t))]
  }

  /** Per-file mode: one view per input CSV file, in order; the first file that cannot be loaded raises. */
  function PerFileAnalysis(paths: seq<string>, fs: FileSystem): (o: Outcome)
    ensures o.unsupported == []
    ensures |o.shown| <= |paths|
    ensures o.raised.None? ==> |o.shown| == |paths|
    ensures forall k :: 0 <= k < |o.shown| ==> o.shown[k].DailyView?
  {
    if paths == [] then Outcome([], [], None)
    else
      var o := PerFileAnalysis(paths[..|paths| - 1], fs);
      var loaded := fs.loadCsv(paths[|paths| - 1]);
      if o.raised.Some? then o
      else if loaded.Err? then o.(raised := Some(loaded.error))
      else if !WellFormed(loaded.value) then o.(raised := Some(ShapeMismatch))
      else o.(shown := o.shown + [DailyView(ViewData(loaded.value))])
  }

  lemma {:induction false} PerFileFailureSticks(paths: seq<string>, n: nat, fs: FileSystem)
    requires n <= |paths|
    requires PerFileAnalysis(paths[..n], fs).raised.Some?
    ensures PerFileAnalysis(paths, fs) == PerFileAnalysis(paths[..n], fs)
    decreases |paths| - n
  {
    if n < |paths| {
      assert paths[..|paths| - 1][..n] == paths[..n];
      PerFileFailureSticks(paths[..|paths| - 1], n, fs);
    } else {
      assert paths[..n] == paths;
    }
  }

  /** When every file loads as a table, per-file mode shows exactly one view per file, in input order. */
  lemma {:induction false} PerFileViewsAll(paths: seq<string>, fs: FileSystem)
    requires forall i :: 0 <= i < |paths| ==> fs.loadCsv(paths[i]).Ok? && WellFormed(fs.loadCsv(paths[i]).value)
    ensures PerFileAnalysis(paths, fs) ==
      Outcome([], seq(|paths|, i requires 0 <= i < |paths| => DailyView(ViewData(fs.loadCsv(paths[i]).value))), None)
    decreases |paths|
  {
    if paths != [] {
      var init := paths[..|paths| - 1];
      PerFileViewsAll(init, fs);
    }
  }

  /** The first loop of `main`: each new stripped extension is appended, in file order. */
  method CollectExtensions(files: seq<string>) returns (extensions: seq<string>)
    ensures extensions == Extensions(files)
  {
    extensions := [];
    for i := 0 to |files|
      invariant extensions == Dedup(RawExtensions(files[..i]))
    {
      RawExtensionsSnoc(files, i);
      var ext := Extension(files[i]);
      if ext != "" {
        DedupSnoc(RawExtensions(files[..i]), ext[1..]);
      } else {
        assert RawExtensions(files[..i]) + StrippedExtension(files[i]) == RawExtensions(files[..i]);
      }
      if ext != "" && ext[1..] !in extensions {
        extensions := extensions + [ext[1..]];
      }
    }
    assert files[..|files|] == files;
  }

  /** The second loop of `main`: the sources of `dir` are loaded and concatenated in extension order. */
  method GatherDataset(extensions: seq<string>, dir: string, fs: FileSystem) returns (g: Gathered)
    ensures g == Dispatch(extensions, JsonDataSource(dir).LoadInflammationData(fs), CsvDataSource(dir).LoadInflammationData(fs))
  {
    ghost var json := JsonDataSource(dir).LoadInflammationData(fs);
    ghost var csv := CsvDataSource(dir).LoadInflammationData(fs);
    var dataset: seq<Table> := [];
    var unsupported: seq<string> := [];
    for i := 0 to |extensions|
      invariant Dispatch(extensions[..i], json, csv) == Gathered(dataset, unsupported, None)
    {
      DispatchSnoc(extensions, i, json, csv);
      var ext := extensions[i];
      if ext == "json" {
        var data := JsonDataSource(dir).LoadInflammationData(fs);
        if data.Err? {
          DispatchFailureSticks(extensions, i + 1, json, csv);
          return Gathered(dataset, unsupported, Some(data.error));
        }
        dataset := dataset + data.value;
      } else if ext == "csv" {
        var data := CsvDataSource(dir).LoadInflammationData(fs);
        if data.Err? {
          DispatchFailureSticks(extensions, i + 1, json, csv);
          return Gathered(dataset, unsupported, Some(data.error));
        }
        dataset := dataset + data.value;
      } else {
        unsupported := unsupported + [ext];
      }
    }
    assert extensions[..|extensions|] == extensions;
    return Gathered(dataset, unsupported, None);
  }

  /** The per-file loop of `main`: one view per input file, until a file fails to load. */
  method ShowEachFile(paths: seq<string>, fs: FileSystem) returns (outcome: Outcome)
    ensures outcome == PerFileAnalysis(paths, fs)
  {
    var shown: seq<Display> := [];
    for i := 0 to |paths|
      invariant PerFileAnalysis(paths[..i], fs) == Outcome([], shown, None)
    {
      assert paths[..i + 1][..i] == paths[..i];
      var loaded := fs.loadCsv(paths[i]);
      if loaded.Err? || !WellFormed(loaded.value) {
        PerFileFailureSticks(paths, i + 1, fs);
        return Outcome([], shown, Some(if loaded.Err? then loaded.error else ShapeMismatch));
      }
      var inflammationData := loaded.value;
      var viewData := [("average", DailyMean(inflammationData)), ("max", DailyMax(inflammationData)), ("min", DailyMin(inflammationData))];
      shown := shown + [DailyView(viewData)];
    }
    assert paths[..|paths|] == paths;
    return Outcome([], shown, None);
  }

  /** `main`: full-data analysis of the first input's directory, or one view per input file. */
  method Run(infiles: InFiles, fullDataAnalysis: bool, fs: FileSystem) returns (outcome: Outcome)
    ensures fullDataAnalysis ==> outcome == FullDataAnalysis(Normalise(infiles), fs)
    ensures !fullDataAnalysis ==> outcome == PerFileAnalysis(Normalise(infiles), fs)
  {
    var paths := Normalise(infiles);
    if !fullDataAnalysis {
      outcome := ShowEachFile(paths, fs);
      return;
    }
    if |paths| == 0 {
      return Outcome([], [], Some(NoInputFiles));
    }
    var listing := fs.listDir(paths[0]);
    if listing.Err? {
      return Outcome([], [], Some(listing.error));
    }
    var files := RegularFiles(listing.value);
    var extensions := CollectExtensions(files);
    var g := GatherDataset(extensions, Dirname(paths[0]), fs);
    if g.failure.Some? {
      return Outcome(g.unsupported, [], g.failure);
    }
    if g.dataset == [] {
      return Outcome(g.unsupported, [], Some(NoSupportedFormats));
    }
    if !Stackable(g.dataset) {
      return Outcome(g.unsupported, [], Some(ShapeMismatch));
    }
    var results := AnalyseData(g.dataset);
    return Outcome(g.unsupported, [SpreadPlot(results)], None);
  }
}

=== FILE: compute_data.dfy ===
/**
 * `inflammation/compute_data.py` repeats the data sources and the spread
 * computation of the model layer; here each of its functions is a thin alias
 * of the shared definition in `Models`.
 */
module ComputeData {
  import opened Errors
  import opened Series
  import opened Tables
  import opened Os
  import Models

  /** `CSVDataSource(dataDir).load_inflammation_data()`. */
  function LoadCsvInflammationData(dataDir: string, fs: FileSystem): (r: Result<seq<Table>>)
    ensures r == Models.CsvDataSource(dataDir).LoadInflammationData(fs)
  {
    Models.CsvDataSource(dataDir).LoadInflammationData(fs)
  }

  /** `JSONDataSource(dataDir).load_inflammation_data()`. */
  function LoadJsonInflammationData(dataDir: string, fs: FileSystem): (r: Result<seq<Table>>)
    ensures r == Models.JsonDataSource(dataDir).LoadInflammationData(fs)
  {
    Models.JsonDataSource(dataDir).LoadInflammationData(fs)
  }

  /** `compute_standard_deviation_by_day`, squared (see `Models.ComputeVarianceByDay`). */
  function ComputeVarianceByDay(data: seq<Table>): (r: seq<real>)
    requires Models.Stackable(data)
    ensures r == Models.ComputeVarianceByDay(data)
  {
    Models.ComputeVarianceByDay(data)
  }

  /** `analyse_data`: exactly the spread by day of its argument. */
  function AnalyseData(dataset: seq<Table>): (r: seq<real>)
    requires Models.Stackable(dataset)
    ensures r == ComputeVarianceByDay(dataset)
  {
    ComputeVarianceByDay(dataset)
  }

  /** A directory with no `inflammation*.csv` entry makes the CSV source raise, naming the directory. */
  lemma CsvSourceWithoutMatchesRaises(dataDir: string, fs: FileSystem)
    requires forall e :: e in GlobListing(fs, dataDir) ==> !GlobMatch(e.name, "csv")
    ensures LoadCsvInflammationData(dataDir, fs) == Err(NoDataFiles(dataDir, "csv"))
  {
  }

  /** Two patients in the same file: one table, so no spread on any day. */
  lemma TwoPatientsInOneFile()
    ensures Models.Stackable([[[0.0, 1.0, 0.0], [0.0, 2.0, 0.0]]])
    ensures ComputeVarianceByDay([[[0.0, 1.0, 0.0], [0.0, 2.0, 0.0]]]) == [0.0, 0.0, 0.0]
  {
    Models.SpreadOfSingleTable([[0.0, 1.0, 0.0], [0.0, 2.0, 0.0]]);
  }

  /**
   * Two patients in different files: variance [0, 0.25, 0], whose standard
   * deviation is [0, sqrt(0.25), 0] = [0, 0.5, 0].
   */
  lemma TwoPatientsInTwoFiles()
    ensures Models.Stackable([[[0.0, 1.0, 0.0]], [[0.0, 2.0, 0.0]]])
    ensures ComputeVarianceByDay([[[0.0, 1.0, 0.0]], [[0.0, 2.0, 0.0]]]) == [0.0, 0.25, 0.0]
    ensures Models.IsStandardDeviationByDay([0.0, 0.5, 0.0], [[[0.0, 1.0, 0.0]], [[0.0, 2.0, 0.0]]])
  {
    var a, b := [0.0, 1.0, 0.0], [0.0, 2.0, 0.0];
    Models.SpreadOfTwoPatients(a, b);
    var v := ComputeVarianceByDay([[a], [b]]);
    assert Square(a[0] - b[0]) == 0.0 && Square(a[2] - b[2]) == 0.0;
    assert Square(a[1] - b[1]) == 1.0;
    assert v[0] == 0.0 && v[1] == 0.25 && v[2] == 0.0;
  }

  /** Two identical files: no spread on any day. */
  lemma TwoIdenticalFiles()
    ensures Models.Stackable([[[0.0, 1.0, 0.0], [0.0, 2.0, 0.0]], [[0.0, 1.0, 0.0], [0.0, 2.0, 0.0]]])
    ensures ComputeVarianceByDay([[[0.0, 1.0, 0.0], [0.0, 2.0, 0.0]], [[0.0, 1.0, 0.0], [0.0, 2.0, 0.0]]])
         == [0.0, 0.0, 0.0]
  {
    var t := [[0.0, 1.0, 0.0], [0.0, 2.0, 0.0]];
    Models.SpreadOfAgreeingTables([t, t]);
  }
}

=== FILE: errors.dfy ===
/** Failure values shared by every module of the model. */
module Errors {

  datatype Option<+T> = None | Some(value: T)

  /** The exceptions the analysis raises, by cause. */
  datatype Error =
    | NoDataFiles(dataDir: string, extension: string)  // a data source found no `inflammation*.<ext>` file
    | NotFound(path: string)                          // a loader could not open its path
    | FormatError(path: string)                       // a loader could not parse its file as a numeric table
    | ShapeMismatch                                   // tables that the statistics cannot reduce or stack
    | NoSupportedFormats                              // no csv or json table at all in full-analysis mode
    | NoInputFiles                                    // `infiles[0]` on an empty file list

  datatype Result<+T> = Ok(value: T) | Err(error: Error)
}

=== FILE: models.dfy ===
/**
 * The model layer (`inflammation/models.py`): per-day statistics of one
 * table, the directory data sources, and the spread of the daily means
 * across several tables. The spread is stated as a population variance; the
 * standard deviation the program reports is its non-negative square root.
 */
module Models {
  import opened Errors
  import opened Series
  import opened Tables
  import opened Os

  /** Mean of every day over all patients: column sum divided by the patient count. */
  function DailyMean(t: Table): (r: seq<real>)
    requires WellFormed(t)
    ensures |r| == Days(t)
    ensures forall j :: 0 <= j < |r| ==> r[j] == Sum(Column(t, j)) / (|t| as real)
  {
    seq(Days(t), j requires 0 <= j < Days(t) => Mean(Column(t, j)))
  }

  /** Maximum of every day: no patient's reading exceeds it, and some patient has it. */
  function DailyMax(t: Table): (r: seq<real>)
    requires WellFormed(t)
    ensures |r| == Days(t)
    ensures forall j :: 0 <= j < |r| ==>
      (forall i :: 0 <= i < |t| ==> t[i][j] <= r[j]) && (exists i :: 0 <= i < |t| && t[i][j] == r[j])
  {
    var r := seq(Days(t), j requires 0 <= j < Days(t) => Max(Column(t, j)));
    assert forall j, i :: 0 <= j < |r| && 0 <= i < |t| ==> Column(t, j)[i] == t[i][j];
    r
  }

  /** Minimum of every day: no patient's reading is below it, and some patient has it. */
  function DailyMin(t: Table): (r: seq<real>)
    requires WellFormed(t)
    ensures |r| == Days(t)
    ensures forall j :: 0 <= j < |r| ==>
      (forall i :: 0 <= i < |t| ==> r[j] <= t[i][j]) && (exists i :: 0 <= i < |t| && t[i][j] == r[j])
  {
    var r := seq(Days(t), j requires 0 <= j < Days(t) => Min(Column(t, j)));
    assert forall j, i :: 0 <= j < |r| && 0 <= i < |t| ==> Column(t, j)[i] == t[i][j];
    r
  }

  /** On every day, the minimum is at most the mean and the mean at most the maximum. */
  lemma DailyMeanBetweenMinAndMax(t: Table)
    requires WellFormed(t)
    ensures forall j :: 0 <= j < Days(t) ==> DailyMin(t)[j] <= DailyMean(t)[j] <= DailyMax(t)[j]
  {
    forall j | 0 <= j < Days(t)
      ensures DailyMin(t)[j] <= DailyMean(t)[j] <= DailyMax(t)[j]
    {
      MeanBetweenMinAndMax(Column(t, j));
    }
  }

  /** A table of zeros has all-zero mean, maximum and minimum, one per day. */
  lemma ZeroTableStatistics(t: Table)
    requires WellFormed(t)
    requires forall i, j :: 0 <= i < |t| && 0 <= j < |t[i]| ==> t[i][j] == 0.0
    ensures DailyMean(t) == DailyMax(t) == DailyMin(t) == seq(Days(t), j => 0.0)
  {
    forall j | 0 <= j < Days(t)
      ensures DailyMean(t)[j] == 0.0
    {
      MeanBounds(Column(t, j), 0.0, 0.0);
    }
  }

  /** The worked examples of the daily mean. */
  lemma DailyMeanExamples()
    ensures DailyMean([[1.0, 2.0], [3.0, 4.0], [5.0, 6.0]]) == [3.0, 4.0]
    ensures DailyMean([[7.0, 2.0], [3.0, 8.0], [2.0, -7.0]]) == [4.0, 1.0]
  {
    ColumnSums([[1.0, 2.0], [3.0, 4.0], [5.0, 6.0]]);
    ColumnSums([[7.0, 2.0], [3.0, 8.0], [2.0, -7.0]]);
  }

  /** The daily mean of a two-patient table is the midpoint of the two readings of each day. */
  lemma DailyMeanOfTwoPatients(a: seq<real>, b: seq<real>)
    requires |a| == |b|
    ensures WellFormed([a, b])
    ensures forall j :: 0 <= j < |a| ==> DailyMean([a, b])[j] == (a[j] + b[j]) / 2.0
  {
    forall j | 0 <= j < |a|
      ensures DailyMean([a, b])[j] == (a[j] + b[j]) / 2.0
    {
      var c := Column([a, b], j);
      assert c[1..] == [b[j]];
      SumOfSingleton(b[j]);
    }
  }

  /** The means of [[2, 0], [4, 0]] and [[3, 0], [4, 0]] are [3, 0] and [3.5, 0]. */
  lemma TwoPatientMeanExamples()
    ensures DailyMean([[2.0, 0.0], [4.0, 0.0]]) == [3.0, 0.0]
    ensures DailyMean([[3.0, 0.0], [4.0, 0.0]]) == [3.5, 0.0]
  {
    DailyMeanOfTwoPatients([2.0, 0.0], [4.0, 0.0]);
    DailyMeanOfTwoPatients([3.0, 0.0], [4.0, 0.0]);
  }

  /** The worked examples of the daily maximum and minimum. */
  lemma DailyMaxMinExamples()
    ensures DailyMax([[1.0, 2.0], [3.0, 4.0], [5.0, 6.0]]) == [5.0, 6.0]
    ensures DailyMin([[1.0, 2.0], [3.0, 4.0], [5.0, 6.0]]) == [1.0, 2.0]
    ensures DailyMax([[5.0, 2.0], [3.0, 6.0], [-1.0, 7.0]]) == [5.0, 7.0]
    ensures DailyMin([[5.0, 2.0], [3.0, 6.0], [-1.0, 7.0]]) == [-1.0, 2.0]
  {
    MaxMinOfThreeByTwo([[1.0, 2.0], [3.0, 4.0], [5.0, 6.0]], [5.0, 6.0], [1.0, 2.0]);
    MaxMinOfThreeByTwo([[5.0, 2.0], [3.0, 6.0], [-1.0, 7.0]], [5.0, 7.0], [-1.0, 2.0]);
  }

  /** The daily maximum and minimum of a table are pinned down by their bound and membership properties. */
  lemma MaxMinOfThreeByTwo(t: Table, hi: seq<real>, lo: seq<real>)
    requires |t| == 3 && |t[0]| == |t[1]| == |t[2]| == 2 && |hi| == |lo| == 2
    requires forall j :: 0 <= j < 2 ==> (exists i :: 0 <= i < 3 && t[i][j] == hi[j]) && (forall i :: 0 <= i < 3 ==> t[i][j] <= hi[j])
    requires forall j :: 0 <= j < 2 ==> (exists i :: 0 <= i < 3 && t[i][j] == lo[j]) && (forall i :: 0 <= i < 3 ==> lo[j] <= t[i][j])
    ensures DailyMax(t) == hi && DailyMin(t) == lo
  {
    var mx, mn := DailyMax(t), DailyMin(t);
    forall j | 0 <= j < 2
      ensures mx[j] == hi[j] && mn[j] == lo[j]
    {
    }
  }

  /** Column sums of a three-patient, two-day table. */
  lemma ColumnSums(t: Table)
    requires |t| == 3 && |t[0]| == |t[1]| == |t[2]| == 2
    ensures Sum(Column(t, 0)) == t[0][0] + t[1][0] + t[2][0]
    ensures Sum(Column(t, 1)) == t[0][1] + t[1][1] + t[2][1]
  {
    SumOfThree(Column(t, 0));
    SumOfThree(Column(t, 1));
  }

  lemma SumOfSingleton(x: real)
    ensures Sum([x]) == x
  {
    assert [x][1..] == [];
  }

  lemma SumOfThree(c: seq<real>)
    requires |c| == 3
    ensures Sum(c) == c[0] + c[1] + c[2]
  {
    assert c[1..][1..] == c[2..] && c[2..][1..] == [];
    assert Sum(c[2..]) == c[2];
    assert Sum(c[1..]) == c[1] + Sum(c[2..]);
  }

  // ---- Data sources -------------------------------------------------------

  /**
   * The paths `glob.glob(os.path.join(dir, "inflammation*.<ext>"))` yields for a
   * directory whose entries are `entries`: every matching entry joined to the
   * directory, in enumeration order.
   */
  function MatchPaths(dir: string, entries: seq<DirEntry>, ext: string): (paths: seq<string>)
    ensures |paths| <= |entries|
    ensures paths == [] <==> forall e :: e in entries ==> !GlobMatch(e.name, ext)
  {
    if entries == [] then []
    else
      var rest := MatchPaths(dir, entries[1..], ext);
      assert forall e :: e in entries[1..] ==> e in entries;
      if GlobMatch(entries[0].name, ext) then [Join(dir, entries[0].name)] + rest else rest
  }

  /** The glob distributes over a split listing, so it keeps enumeration order and multiplicity. */
  lemma {:induction false} MatchPathsConcat(dir: string, a: seq<DirEntry>, b: seq<DirEntry>, ext: string)
    ensures MatchPaths(dir, a + b, ext) == MatchPaths(dir, a, ext) + MatchPaths(dir, b, ext)
    decreases |a|
  {
    if a == [] {
      assert a + b == b;
    } else {
      assert (a + b)[0] == a[0];
      assert (a + b)[1..] == a[1..] + b;
      MatchPathsConcat(dir, a[1..], b, ext);
    }
  }

  /** One entry yields exactly one path, its name joined to the directory, when it matches, and none otherwise. */
  lemma MatchPathsOfEntry(dir: string, e: DirEntry, ext: string)
    ensures MatchPaths(dir, [e], ext) == if GlobMatch(e.name, ext) then [Join(dir, e.name)] else []
  {
    assert [e][1..] == [];
  }

  /** The matched paths are exactly the matching entries joined to the directory. */
  lemma {:induction false} MatchPathsMembers(dir: string, entries: seq<DirEntry>, ext: string)
    ensures forall e :: e in entries && GlobMatch(e.name, ext) ==> Join(dir, e.name) in MatchPaths(dir, entries, ext)
    ensures forall p :: p in MatchPaths(dir, entries, ext) ==>
      exists e :: e in entries && GlobMatch(e.name, ext) && p == Join(dir, e.name)
    decreases |entries|
  {
    if entries != [] {
      var head, tail := entries[0], entries[1..];
      var rest := MatchPaths(dir, tail, ext);
      MatchPathsMembers(dir, tail, ext);
      assert MatchPaths(dir, entries, ext) == (if GlobMatch(head.name, ext) then [Join(dir, head.name)] else []) + rest;
      forall e | e in entries && GlobMatch(e.name, ext)
        ensures Join(dir, e.name) in MatchPaths(dir, entries, ext)
      {
        if e != head { assert e in tail; }
      }
      forall p | p in MatchPaths(dir, entries, ext)
        ensures exists e :: e in entries && GlobMatch(e.name, ext) && p == Join(dir, e.name)
      {
        if p !in rest { assert head in entries && p == Join(dir, head.name); }
        else {
          var e :| e in tail && GlobMatch(e.name, ext) && p == Join(dir, e.name);
          assert e in entries;
        }
      }
    }
  }

  /**
   * `list(map(load, paths))`: the tables in path order, or the error of the
   * first path whose load fails.
   */
  function LoadAll(paths: seq<string>, load: string -> Result<Table>): (r: Result<seq<Table>>)
    ensures r.Ok? <==> forall i :: 0 <= i < |paths| ==> load(paths[i]).Ok?
    ensures r.Ok? ==> |r.value| == |paths| && forall i :: 0 <= i < |paths| ==> load(paths[i]) == Ok(r.value[i])
    ensures r.Err? ==> exists i :: 0 <= i < |paths| && load(paths[i]) == Err(r.error) &&
                                   forall k :: 0 <= k < i ==> load(paths[k]).Ok?
  {
    if paths == [] then Ok([])
    else match load(paths[0])
      case Err(e) => Err(e)
      case Ok(t) =>
        var rest := LoadAll(paths[1..], load);
        if rest.Err? then
          assert exists i :: 0 <= i < |paths[1..]| && load(paths[1..][i]) == Err(rest.error) &&
                             forall k :: 0 <= k < i ==> load(paths[1..][k]).Ok?;
          Err(rest.error)
        else Ok([t] + rest.value)
  }

  /** `CSVDataSource(dataDir)` and `JSONDataSource(dataDir)`. */
  datatype DataSource = CsvDataSource(dataDir: string) | JsonDataSource(dataDir: string)
  {
    function Extension(): string
    {
      if CsvDataSource? then "csv" else "json"
    }

    function Loader(fs: FileSystem): string -> Result<Table>
    {
      if CsvDataSource? then fs.loadCsv else fs.loadJson
    }

    function MatchingPaths(fs: FileSystem): seq<string>
    {
      MatchPaths(dataDir, GlobListing(fs, dataDir), Extension())
    }

    /**
     * `load_inflammation_data`: no matching file is an error naming the
     * directory and the format; otherwise one table per matching path, in
     * match order, unless a load fails.
     */
    function LoadInflammationData(fs: FileSystem): (r: Result<seq<Table>>)
      ensures MatchingPaths(fs) == [] ==> r == Err(NoDataFiles(dataDir, Extension()))
      ensures MatchingPaths(fs) == [] <==> forall e :: e in GlobListing(fs, dataDir) ==> !GlobMatch(e.name, Extension())
      ensures r.Ok? <==> MatchingPaths(fs) != [] && forall i :: 0 <= i < |MatchingPaths(fs)| ==> Loader(fs)(MatchingPaths(fs)[i]).Ok?
      ensures r.Ok? ==> |r.value| == |MatchingPaths(fs)| > 0
      ensures r.Ok? ==> forall i :: 0 <= i < |r.value| ==> Loader(fs)(MatchingPaths(fs)[i]) == Ok(r.value[i])
      ensures r.Err? && MatchingPaths(fs) != [] ==>
        exists i :: 0 <= i < |MatchingPaths(fs)| && Loader(fs)(MatchingPaths(fs)[i]) == Err(r.error) &&
                    forall k :: 0 <= k < i ==> Loader(fs)(MatchingPaths(fs)[k]).Ok?
    {
      var paths := MatchingPaths(fs);
      if |paths| == 0 then Err(NoDataFiles(dataDir, Extension())) else LoadAll(paths, Loader(fs))
    }
  }

  // ---- Spread of the daily means across tables ------------------------------

  /** Tables that `np.stack` can stack after taking daily means: at least one, all with the same day count. */
  predicate Stackable(data: seq<Table>)
  {
    |data| > 0 &&
    (forall i :: 0 <= i < |data| ==> WellFormed(data[i])) &&
    forall i :: 0 <= i < |data| ==> Days(data[i]) == Days(data[0])
  }

  /** The matrix of daily means: one row per table. */
  function Stack(data: seq<Table>): seq<seq<real>>
    requires forall i :: 0 <= i < |data| ==> WellFormed(data[i])
  {
    seq(|data|, i requires 0 <= i < |data| => DailyMean(data[i]))
  }

  /** Every table is well formed and has a day `j`. */
  predicate HasDay(data: seq<Table>, j: nat)
  {
    forall i :: 0 <= i < |data| ==> WellFormed(data[i]) && j < Days(data[i])
  }

  /** The mean of day `j` of every table, in table order. */
  function MeansOnDay(data: seq<Table>, j: nat): seq<real>
    requires HasDay(data, j)
  {
    seq(|data|, i requires 0 <= i < |data| => DailyMean(data[i])[j])
  }

  /**
   * `compute_standard_deviation_by_day`, squared: for every day, the
   * population variance (divide by the table count) of the tables' means of
   * that day.
   */
  function ComputeVarianceByDay(data: seq<Table>): (r: seq<real>)
    requires Stackable(data)
    ensures |r| == Days(data[0])
    ensures forall j :: 0 <= j < |r| ==> r[j] >= 0.0 && r[j] == PopVariance(MeansOnDay(data, j))
  {
    var m := Stack(data);
    var r := seq(Days(data[0]), j requires 0 <= j < Days(data[0]) => PopVariance(Column(m, j)));
    assert forall j :: 0 <= j < |r| ==> Column(m, j) == MeansOnDay(data, j);
    r
  }

  /** `s` is the standard deviation by day: the non-negative square root of each day's variance. */
  predicate IsStandardDeviationByDay(s: seq<real>, data: seq<Table>)
    requires Stackable(data)
    ensures IsStandardDeviationByDay(s, data) ==> |s| == Days(data[0])
    ensures IsStandardDeviationByDay(s, data) ==> forall j :: 0 <= j < |s| ==>
      (s[j] == 0.0 <==> forall i :: 0 <= i < |data| ==> DailyMean(data[i])[j] == DailyMean(data[0])[j])
  {
    var v := ComputeVarianceByDay(data);
    SpreadsZeroIffMeansAgree(data);
    if |s| == |v| && forall j :: 0 <= j < |s| ==> IsSqrt(s[j], v[j]) then
      SqrtsZeroIff(s, v);
      true
    else false
  }

  /** `SpreadZeroIffMeansAgree` on every day at once. */
  lemma SpreadsZeroIffMeansAgree(data: seq<Table>)
    requires Stackable(data)
    ensures forall j :: 0 <= j < Days(data[0]) ==> (ComputeVarianceByDay(data)[j] == 0.0 <==>
      forall i :: 0 <= i < |data| ==> DailyMean(data[i])[j] == DailyMean(data[0])[j])
  {
    forall j | 0 <= j < Days(data[0])
      ensures ComputeVarianceByDay(data)[j] == 0.0 <==>
        forall i :: 0 <= i < |data| ==> DailyMean(data[i])[j] == DailyMean(data[0])[j]
    {
      SpreadZeroIffMeansAgree(data, j);
    }
  }

  /** The standard deviation by day is determined by the data, and is zero exactly where the variance is. */
  lemma StandardDeviationByDayUnique(s1: seq<real>, s2: seq<real>, data: seq<Table>)
    requires Stackable(data)
    requires IsStandardDeviationByDay(s1, data) && IsStandardDeviationByDay(s2, data)
    ensures s1 == s2
    ensures forall j :: 0 <= j < |s1| ==> (s1[j] == 0.0 <==> ComputeVarianceByDay(data)[j] == 0.0)
  {
    var v := ComputeVarianceByDay(data);
    forall j | 0 <= j < |s1|
      ensures s1[j] == s2[j] && (s1[j] == 0.0 <==> v[j] == 0.0)
    {
      SqrtUnique(s1[j], s2[j], v[j]);
      SqrtZeroIff(s1[j], v[j]);
    }
  }

  /** A day has zero spread exactly when every table has the same mean on that day. */
  lemma SpreadZeroIffMeansAgree(data: seq<Table>, j: nat)
    requires Stackable(data) && j < Days(data[0])
    ensures ComputeVarianceByDay(data)[j] == 0.0 <==>
      forall i :: 0 <= i < |data| ==> DailyMean(data[i])[j] == DailyMean(data[0])[j]
  {
    var m := MeansOnDay(data, j);
    assert forall i :: 0 <= i < |data| ==> m[i] == DailyMean(data[i])[j];
    VarianceZeroIffConstant(m);
  }

  /** A single table has zero spread on every day, whatever its patient count. */
  lemma SpreadOfSingleTable(t: Table)
    requires WellFormed(t)
    ensures Stackable([t])
    ensures ComputeVarianceByDay([t]) == seq(Days(t), j => 0.0)
  {
    forall j | 0 <= j < Days(t)
      ensures ComputeVarianceByDay([t])[j] == 0.0
    {
      SpreadZeroIffMeansAgree([t], j);
    }
  }

  /** Tables that all have the same daily means (identical tables in particular) have zero spread. */
  lemma SpreadOfAgreeingTables(data: seq<Table>)
    requires Stackable(data)
    requires forall i :: 0 <= i < |data| ==> DailyMean(data[i]) == DailyMean(data[0])
    ensures ComputeVarianceByDay(data) == seq(Days(data[0]), j => 0.0)
  {
    forall j | 0 <= j < Days(data[0])
      ensures ComputeVarianceByDay(data)[j] == 0.0
    {
      SpreadZeroIffMeansAgree(data, j);
    }
  }

  /** Two single-patient tables: the spread of each day is the squared half-difference of the readings. */
  lemma SpreadOfTwoPatients(a: seq<real>, b: seq<real>)
    requires |a| == |b|
    ensures Stackable([[a], [b]])
    ensures forall j :: 0 <= j < |a| ==> ComputeVarianceByDay([[a], [b]])[j] == Square(a[j] - b[j]) / 4.0
  {
    var data := [[a], [b]];
    forall j | 0 <= j < |a|
      ensures ComputeVarianceByDay(data)[j] == Square(a[j] - b[j]) / 4.0
    {
      assert Column([a], j) == [a[j]] && Column([b], j) == [b[j]];
      assert [a[j]][1..] == [] && [b[j]][1..] == [];
      SumOfSingleton(a[j]);
      SumOfSingleton(b[j]);
      assert DailyMean([a])[j] == a[j] && DailyMean([b])[j] == b[j];
      assert MeansOnDay(data, j) == [a[j], b[j]];
      VarianceOfPair(a[j], b[j]);
    }
  }

  /** Tables drawn from tables that all have day `j` have day `j` too. */
  lemma HasDayOfSubMultiset(data: seq<Table>, data': seq<Table>, j: nat)
    requires HasDay(data, j)
    requires multiset(data') <= multiset(data)
    ensures HasDay(data', j)
  {
    forall i | 0 <= i < |data'|
      ensures WellFormed(data'[i]) && j < Days(data'[i])
    {
      assert data'[i] in multiset(data');
      assert data'[i] in data;
    }
  }

  /** The mean of day `j` of a table that has that day (and 0 for any other, which never occurs below). */
  function MeanOfDay(j: nat): Table -> real
  {
    t => if WellFormed(t) && j < Days(t) then DailyMean(t)[j] else 0.0
  }

  /** Reordering tables keeps the multiset of every day's means. */
  lemma MeansOnDayPermutation(data: seq<Table>, data': seq<Table>, j: nat)
    requires HasDay(data, j)
    requires multiset(data) == multiset(data')
    ensures HasDay(data', j)
    ensures multiset(MeansOnDay(data, j)) == multiset(MeansOnDay(data', j))
  {
    HasDayOfSubMultiset(data, data', j);
    ApplyPermutation(MeanOfDay(j), data, data');
    assert MeansOnDay(data, j) == Apply(MeanOfDay(j), data);
    assert MeansOnDay(data', j) == Apply(MeanOfDay(j), data');
  }

  lemma StackableHasDays(data: seq<Table>, j: nat)
    requires Stackable(data) && j < Days(data[0])
    ensures HasDay(data, j)
  {
  }

  /** Reordering stackable tables leaves them stackable, with the same day count. */
  lemma PermutationStackable(data: seq<Table>, data': seq<Table>)
    requires Stackable(data)
    requires multiset(data) == multiset(data')
    ensures Stackable(data') && Days(data'[0]) == Days(data[0])
  {
    assert |data'| == |multiset(data')| == |data|;
    forall i | 0 <= i < |data'|
      ensures WellFormed(data'[i]) && Days(data'[i]) == Days(data[0])
    {
      assert data'[i] in multiset(data);
    }
  }

  /** The spread depends only on which tables there are, not on their order. */
  lemma SpreadInvariantUnderReordering(data: seq<Table>, data': seq<Table>)
    requires Stackable(data)
    requires multiset(data) == multiset(data')
    ensures Stackable(data')
    ensures ComputeVarianceByDay(data') == ComputeVarianceByDay(data)
  {
    PermutationStackable(data, data');
    forall j | 0 <= j < Days(data[0])
      ensures ComputeVarianceByDay(data')[j] == ComputeVarianceByDay(data)[j]
    {
      StackableHasDays(data, j);
      MeansOnDayPermutation(data, data', j);
      VariancePermutation(MeansOnDay(data, j), MeansOnDay(data', j));
    }
  }

  /** `analyse_data`: the spread by day of the whole dataset. */
  function AnalyseData(dataset: seq<Table>): (r: seq<real>)
    requires Stackable(dataset)
    ensures r == ComputeVarianceByDay(dataset)
  {
    ComputeVarianceByDay(dataset)
  }
}

=== FILE: os.dfy ===
/**
 * The parts of the operating system the analysis consults: directory
 * listings, file loaders, and the POSIX path helpers `os.path.join`,
 * `os.path.dirname`, `os.path.splitext` and the `inflammation*.<ext>` glob.
 */
module Os {
  import opened Errors
  import opened Tables

  /** One entry of a directory listing: its name and whether it is a regular file. */
  datatype DirEntry = DirEntry(name: string, isFile: bool)

  /**
   * The file system as the analysis sees it: `os.listdir`, which yields the
   * entries of a directory in the order the system enumerates them, or the
   * error it raises (a missing path, a path that is not a directory), and the
   * CSV and JSON loaders, each of which yields a table or the error it raises.
   */
  datatype FileSystem = FileSystem(
    listDir: string -> Result<seq<DirEntry>>,
    loadCsv: string -> Result<Table>,
    loadJson: string -> Result<Table>)

  /**
   * The entries `glob` enumerates for a pattern in directory `dir`: those of
   * the working directory when `dir` is empty, and none when the directory
   * cannot be listed (`glob` swallows that error).
   */
  function GlobListing(fs: FileSystem, dir: string): seq<DirEntry>
  {
    match fs.listDir(if dir == "" then "." else dir)
    case Ok(entries) => entries
    case Err(_) => []
  }

  /** Index of the last occurrence of `c` in `s`, or -1 when there is none. */
  function LastIndexOf(s: string, c: char): (k: int)
    ensures -1 <= k < |s|
    ensures k >= 0 ==> s[k] == c
    ensures forall i :: k < i < |s| ==> s[i] != c
    ensures k == -1 <==> c !in s
  {
    if |s| == 0 then -1
    else if s[|s| - 1] == c then |s| - 1
    else LastIndexOf(s[..|s| - 1], c)
  }

  /**
   * The extension part of `os.path.splitext(p)`: from the last dot of the
   * final path component to the end, provided that component has a character
   * other than a dot before it; otherwise empty (so ".bashrc" has none).
   */
  function Extension(p: string): (ext: string)
    ensures |ext| <= |p|
    ensures ext == "" || (ext[0] == '.' && '.' !in ext[1..] && '/' !in ext && ext == p[|p| - |ext|..])
  {
    var sep := LastIndexOf(p, '/');
    var dot := LastIndexOf(p, '.');
    if dot > sep && exists k :: sep < k < dot && p[k] != '.' then
      assert forall i :: dot < i < |p| ==> p[i] != '.' && p[i] != '/';
      p[dot..]
    else ""
  }

  predicate AllSlashes(s: string)
  {
    forall i :: 0 <= i < |s| ==> s[i] == '/'
  }

  function StripTrailingSlashes(s: string): (r: string)
    ensures r <= s
    ensures r == "" || r[|r| - 1] != '/'
    ensures AllSlashes(s[|r|..])
  {
    if |s| > 0 && s[|s| - 1] == '/' then
      var r := StripTrailingSlashes(s[..|s| - 1]);
      assert s[|r|..] == s[..|s| - 1][|r|..] + ['/'];
      r
    else s
  }

  /**
   * `os.path.dirname(p)`: everything up to the last slash, with trailing
   * slashes removed unless it consists of slashes only.
   */
  function Dirname(p: string): (r: string)
    ensures r <= p
    ensures r == "" <==> '/' !in p
  {
    var head := p[..LastIndexOf(p, '/') + 1];
    if head != "" && !AllSlashes(head) then
      StripTrailingSlashes(head)
    else head
  }

  /**
   * For a non-empty path without a trailing slash, `dirname` of the path with
   * one slash appended is the path itself, while `dirname` of the path alone
   * is a different string (for a bare name, the empty string).
   */
  lemma DirnameOfTrailingSlash(p: string)
    requires p != "" && p[|p| - 1] != '/'
    ensures Dirname(p + "/") == p
    ensures Dirname(p) != p
  {
    var q := p + "/";
    assert LastIndexOf(q, '/') == |p|;
    assert q[..|p| + 1] == q;
    assert !AllSlashes(q) by { assert q[|p| - 1] != '/'; }
    assert q[..|q| - 1] == p;
  }

  /** `os.path.join(dir, name)` for a single name. */
  function Join(dir: string, name: string): (r: string)
    ensures |name| <= |r| && r[|r| - |name|..] == name
    ensures (|name| == 0 || name[0] != '/') ==> dir <= r
  {
    if |name| > 0 && name[0] == '/' then name
    else if dir == "" || dir[|dir| - 1] == '/' then dir + name
    else dir + "/" + name
  }

  const Prefix: string := "inflammation"

  /** A directory entry name matched by the glob pattern `inflammation*.<ext>`. */
  predicate GlobMatch(name: string, ext: string)
  {
    |name| >= |Prefix| + 1 + |ext| &&
    name[..|Prefix|] == Prefix &&
    name[|name| - |ext| - 1..] == "." + ext
  }

  /** The pattern matches exactly the names `inflammation<middle>.<ext>`, for any middle part. */
  lemma GlobMatchIff(name: string, ext: string)
    ensures GlobMatch(name, ext) <==> exists middle :: name == Prefix + middle + "." + ext
  {
    if GlobMatch(name, ext) {
      assert name == Prefix + name[|Prefix|..|name| - |ext| - 1] + "." + ext;
    }
  }

  /**
   * A name "stem.e", whose stem has a character other than a dot, has the
   * extension ".e" (for "notes." that is "." alone).
   */
  lemma ExtensionOfName(stem: string, e: string, k: nat)
    requires '/' !in stem && '/' !in e && '.' !in e
    requires k < |stem| && stem[k] != '.'
    ensures Extension(stem + "." + e) == "." + e
  {
    var p := stem + "." + e;
    var dot := |stem|;
    assert p[dot] == '.' && p[k] == stem[k];
    assert forall i :: dot < i < |p| ==> p[i] == e[i - dot - 1];
    assert LastIndexOf(p, '.') == dot;
    assert LastIndexOf(p, '/') == -1;
    assert p[dot..] == "." + e;
  }

  /** A name without a dot has no extension. */
  lemma ExtensionWithoutDot(name: string)
    requires '.' !in name
    ensures Extension(name) == ""
  {
  }

  /** A name whose only dot leads it (".bashrc") has no extension. */
  lemma ExtensionOfDotfile(name: string)
    requires |name| > 0 && name[0] == '.' && '.' !in name[1..] && '/' !in name
    ensures Extension(name) == ""
  {
    assert forall i :: 0 < i < |name| ==> name[i] == name[1..][i - 1];
    assert LastIndexOf(name, '.') == 0;
  }
}

=== FILE: series.dfy ===
/**
 * Reductions of a one-dimensional series of reals: the arithmetic used by the
 * daily statistics (NumPy's sum, mean, max, min and population variance),
 * computed exactly.
 */
module Series {

  function Sum(xs: seq<real>): real
  {
    if |xs| == 0 then 0.0 else xs[0] + Sum(xs[1..])
  }

  function Mean(xs: seq<real>): real
    requires |xs| > 0
  {
    Sum(xs) / (|xs| as real)
  }

  /** The largest element: an element of the series, and no element exceeds it. */
  function Max(xs: seq<real>): (m: real)
    requires |xs| > 0
    ensures exists i :: 0 <= i < |xs| && xs[i] == m
    ensures forall i :: 0 <= i < |xs| ==> xs[i] <= m
  {
    if |xs| == 1 then xs[0]
    else
      var rest := Max(xs[1..]);
      if xs[0] >= rest then xs[0] else rest
  }

  /** The smallest element: an element of the series, and no element is below it. */
  function Min(xs: seq<real>): (m: real)
    requires |xs| > 0
    ensures exists i :: 0 <= i < |xs| && xs[i] == m
    ensures forall i :: 0 <= i < |xs| ==> m <= xs[i]
  {
    if |xs| == 1 then xs[0]
    else
      var rest := Min(xs[1..]);
      if xs[0] <= rest then xs[0] else rest
  }

  function Square(x: real): (r: real)
    ensures r >= 0.0
    ensures r == 0.0 <==> x == 0.0
  {
    if x >= 0.0 then MulNonNeg(x, x); x * x
    else MulNonNeg(-x, -x); x * x
  }

  /** Sum of the squared deviations of the elements from `c`; never negative. */
  function SumSqDev(xs: seq<real>, c: real): (r: real)
    ensures r >= 0.0
  {
    if |xs| == 0 then 0.0 else Square(xs[0] - c) + SumSqDev(xs[1..], c)
  }

  /** Population variance (NumPy's `var`/`std` with ddof = 0): squared deviations divided by N. */
  function PopVariance(xs: seq<real>): (v: real)
    requires |xs| > 0
    ensures v >= 0.0
  {
    SumSqDev(xs, Mean(xs)) / (|xs| as real)
  }

  /** `s` is the (non-negative) square root of `v`: how a standard deviation relates to its variance. */
  predicate IsSqrt(s: real, v: real)
  {
    s >= 0.0 && s * s == v
  }

  predicate Constant(xs: seq<real>)
  {
    forall i :: 0 <= i < |xs| ==> xs[i] == xs[0]
  }

  lemma MulNonNeg(a: real, b: real)
    requires a >= 0.0 && b >= 0.0
    ensures a * b >= 0.0
    ensures a * b == 0.0 <==> a == 0.0 || b == 0.0
  {
  }

  /** A series whose elements all lie in [lo, hi] sums to between N*lo and N*hi. */
  lemma {:induction false} SumBounds(xs: seq<real>, lo: real, hi: real)
    requires forall i :: 0 <= i < |xs| ==> lo <= xs[i] <= hi
    ensures (|xs| as real) * lo <= Sum(xs) <= (|xs| as real) * hi
    decreases |xs|
  {
    if |xs| > 0 {
      SumBounds(xs[1..], lo, hi);
      assert (|xs| as real) * lo == ((|xs| - 1) as real) * lo + lo;
      assert (|xs| as real) * hi == ((|xs| - 1) as real) * hi + hi;
    }
  }

  /** A series of N copies of `c` sums to N*c. */
  lemma SumOfConstant(xs: seq<real>, c: real)
    requires forall i :: 0 <= i < |xs| ==> xs[i] == c
    ensures Sum(xs) == (|xs| as real) * c
  {
    SumBounds(xs, c, c);
  }

  /** A series whose elements all lie in [lo, hi] has its mean in [lo, hi]. */
  lemma MeanBounds(xs: seq<real>, lo: real, hi: real)
    requires |xs| > 0
    requires forall i :: 0 <= i < |xs| ==> lo <= xs[i] <= hi
    ensures lo <= Mean(xs) <= hi
  {
    SumBounds(xs, lo, hi);
    DivBounds(Sum(xs), |xs| as real, lo, hi);
  }

  /** The mean of a series lies between its minimum and its maximum. */
  lemma MeanBetweenMinAndMax(xs: seq<real>)
    requires |xs| > 0
    ensures Min(xs) <= Mean(xs) <= Max(xs)
  {
    MeanBounds(xs, Min(xs), Max(xs));
  }

  lemma DivBounds(s: real, n: real, lo: real, hi: real)
    requires n > 0.0
    requires n * lo <= s <= n * hi
    ensures lo <= s / n <= hi
  {
  }

  /** The squared deviations from `c` sum to zero exactly when every element equals `c`. */
  lemma {:induction false} SumSqDevZeroIff(xs: seq<real>, c: real)
    ensures SumSqDev(xs, c) == 0.0 <==> forall i :: 0 <= i < |xs| ==> xs[i] == c
    decreases |xs|
  {
    if |xs| > 0 {
      SumSqDevZeroIff(xs[1..], c);
      assert forall i :: 1 <= i < |xs| ==> xs[i] == xs[1..][i - 1];
    }
  }

  /**
   * The population variance is zero exactly when the series is constant:
   * "no spread" means "every value is the same".
   */
  lemma VarianceZeroIffConstant(xs: seq<real>)
    requires |xs| > 0
    ensures PopVariance(xs) == 0.0 <==> Constant(xs)
  {
    var n := |xs| as real;
    SumSqDevZeroIff(xs, Mean(xs));
    if Constant(xs) {
      SumOfConstant(xs, xs[0]);
      assert Mean(xs) == xs[0];
    } else {
      assert SumSqDev(xs, Mean(xs)) != 0.0;
    }
  }

  /** A single value has no spread. */
  lemma VarianceOfSingleton(x: real)
    ensures PopVariance([x]) == 0.0
  {
    VarianceZeroIffConstant([x]);
  }

  /** For two samples the population variance is the squared half-difference. */
  lemma VarianceOfPair(a: real, b: real)
    ensures PopVariance([a, b]) == Square(a - b) / 4.0
  {
    var xs := [a, b];
    assert xs[1..] == [b];
    assert [b][1..] == [];
    assert Sum([b]) == b + Sum([]);
    assert Sum(xs) == a + b;
    var m := (a + b) / 2.0;
    assert Mean(xs) == m;
    assert SumSqDev([b], m) == Square(b - m) + SumSqDev([], m);
    assert SumSqDev(xs, m) == Square(a - m) + Square(b - m);
    assert Square(a - m) == Square(a - b) / 4.0;
    assert Square(b - m) == Square(a - b) / 4.0;
  }

  /** Removing the element at `k` takes exactly that element out of the sum. */
  lemma {:induction false} SumRemove(ys: seq<real>, k: nat)
    requires k < |ys|
    ensures Sum(ys) == ys[k] + Sum(ys[..k] + ys[k + 1..])
    decreases k
  {
    var rest := ys[..k] + ys[k + 1..];
    if k == 0 {
      assert rest == ys[1..];
    } else {
      var tail := ys[1..];
      SumRemove(tail, k - 1);
      var rest' := tail[..k - 1] + tail[k..];
      assert rest == [ys[0]] + rest';
      assert rest[0] == ys[0] && rest[1..] == rest';
      assert tail[k - 1] == ys[k];
    }
  }

  /** If `x` occurs in `ys`, some index holds it, and dropping that index leaves the rest of the multiset. */
  lemma FindAndRemove<T>(ys: seq<T>, x: T) returns (k: nat)
    requires x in multiset(ys)
    ensures k < |ys| && ys[k] == x
    ensures multiset(ys[..k] + ys[k + 1..]) == multiset(ys) - multiset{x}
  {
    assert x in ys;
    k :| 0 <= k < |ys| && ys[k] == x;
    assert ys == ys[..k] + [ys[k]] + ys[k + 1..];
  }

  /** `f` applied to every element, in order. */
  function Apply<T>(f: T -> real, xs: seq<T>): seq<real>
  {
    seq(|xs|, i requires 0 <= i < |xs| => f(xs[i]))
  }

  /** Dropping the element at `k` drops exactly its image from the mapped multiset. */
  lemma ApplyRemove<T>(f: T -> real, ys: seq<T>, k: nat)
    requires k < |ys|
    ensures multiset(Apply(f, ys)) == multiset{f(ys[k])} + multiset(Apply(f, ys[..k] + ys[k + 1..]))
  {
    var front, back := ys[..k], ys[k + 1..];
    assert Apply(f, ys) == Apply(f, front) + [f(ys[k])] + Apply(f, back);
    assert Apply(f, front + back) == Apply(f, front) + Apply(f, back);
  }

  /** Applying a function to a reordering of `xs` reorders the results the same way. */
  lemma {:induction false} ApplyPermutation<T>(f: T -> real, xs: seq<T>, ys: seq<T>)
    requires multiset(xs) == multiset(ys)
    ensures multiset(Apply(f, xs)) == multiset(Apply(f, ys))
    decreases |xs|
  {
    if |xs| == 0 {
      assert |ys| == |multiset(ys)| == 0;
    } else {
      var k := FindAndRemove(ys, xs[0]);
      assert xs == [xs[0]] + xs[1..];
      assert xs[..0] + xs[1..] == xs[1..];
      ApplyPermutation(f, xs[1..], ys[..k] + ys[k + 1..]);
      ApplyRemove(f, ys, k);
      ApplyRemove(f, xs, 0);
    }
  }


  /** Sums do not depend on the order of the elements. */
  lemma {:induction false} SumPermutation(xs: seq<real>, ys: seq<real>)
    requires multiset(xs) == multiset(ys)
    ensures Sum(xs) == Sum(ys)
    decreases |xs|
  {
    if |xs| == 0 {
      assert |ys| == |multiset(ys)| == 0;
    } else {
      assert xs == [xs[0]] + xs[1..];
      var k := FindAndRemove(ys, xs[0]);
      SumRemove(ys, k);
      SumPermutation(xs[1..], ys[..k] + ys[k + 1..]);
    }
  }

  /** The squared deviation from `c`, as a function of the element. */
  function SquaredDeviationFrom(c: real): real -> real
  {
    x => Square(x - c)
  }

  /** The sum of squared deviations is the sum of the per-element squared deviations. */
  lemma {:induction false} SumSqDevAsSum(xs: seq<real>, c: real)
    ensures SumSqDev(xs, c) == Sum(Apply(SquaredDeviationFrom(c), xs))
    decreases |xs|
  {
    if |xs| > 0 {
      var ds := Apply(SquaredDeviationFrom(c), xs);
      assert ds[0] == Square(xs[0] - c);
      assert ds[1..] == Apply(SquaredDeviationFrom(c), xs[1..]);
      SumSqDevAsSum(xs[1..], c);
    }
  }

  /** The sum of squared deviations does not depend on the order of the elements. */
  lemma SumSqDevPermutation(xs: seq<real>, ys: seq<real>, c: real)
    requires multiset(xs) == multiset(ys)
    ensures SumSqDev(xs, c) == SumSqDev(ys, c)
  {
    var f := SquaredDeviationFrom(c);
    SumSqDevAsSum(xs, c);
    SumSqDevAsSum(ys, c);
    ApplyPermutation(f, xs, ys);
    SumPermutation(Apply(f, xs), Apply(f, ys));
  }

  /** The population variance depends only on the multiset of values, not on their order. */
  lemma VariancePermutation(xs: seq<real>, ys: seq<real>)
    requires |xs| > 0
    requires multiset(xs) == multiset(ys)
    ensures |ys| == |xs|
    ensures PopVariance(xs) == PopVariance(ys)
  {
    assert |xs| == |multiset(xs)| == |multiset(ys)| == |ys|;
    SumPermutation(xs, ys);
    SumSqDevPermutation(xs, ys, Mean(xs));
  }

  /** A square root, when it exists, is unique. */
  lemma SqrtUnique(s1: real, s2: real, v: real)
    requires IsSqrt(s1, v) && IsSqrt(s2, v)
    ensures s1 == s2
  {
    if s1 < s2 {
      SquareStrictlyMonotone(s1, s2);
    } else if s2 < s1 {
      SquareStrictlyMonotone(s2, s1);
    }
  }

  lemma SquareStrictlyMonotone(a: real, b: real)
    requires 0.0 <= a < b
    ensures a * a < b * b
  {
    MulNonNeg(a, b - a);
    MulNonNeg(b, b - a);
    assert a * (b - a) == a * b - a * a;
    assert b * (b - a) == b * b - a * b;
  }

  /** A standard deviation is zero exactly when its variance is zero. */
  lemma SqrtZeroIff(s: real, v: real)
    requires IsSqrt(s, v)
    ensures s == 0.0 <==> v == 0.0
  {
    MulNonNeg(s, s);
  }

  /** `SqrtZeroIff` for each element of two series. */
  lemma SqrtsZeroIff(s: seq<real>, v: seq<real>)
    requires |s| == |v|
    requires forall j :: 0 <= j < |s| ==> IsSqrt(s[j], v[j])
    ensures forall j :: 0 <= j < |s| ==> (s[j] == 0.0 <==> v[j] == 0.0)
  {
    forall j | 0 <= j < |s| ensures s[j] == 0.0 <==> v[j] == 0.0 {
      SqrtZeroIff(s[j], v[j]);
    }
  }

}

=== FILE: tables.dfy ===
/**
 * The inflammation table: one row per patient, one column per day.
 */
module Tables {

  type Table = seq<seq<real>>

  /** At least one patient, and every patient has readings for the same number of days. */
  predicate WellFormed(t: Table)
  {
    |t| > 0 && forall i :: 0 <= i < |t| ==> |t[i]| == |t[0]|
  }

  function Days(t: Table): nat
    requires WellFormed(t)
  {
    |t[0]|
  }

  /** The readings of day `j`, one per patient, in row order. */
  function Column(t: Table, j: nat): seq<real>
    requires forall i :: 0 <= i < |t| ==> j < |t[i]|
  {
    seq(|t|, i requires 0 <= i < |t| => t[i][j])
  }
}
